=== FILE: README.md ===
# A verified model of the MyHockeyRankings team scraper

The scraper (`main.js`) crawls a MyHockeyRankings rankings page and then each
team's page. On the rankings page it turns every table row that has a team
link into a *stub*: the team's name, URL, rank and rating. It keeps the first
`maxTeams` stubs and appends them to an in-memory store. It then passes each
kept stub's URL, when it has one, to `enqueueLinks` with the label `TEAM_DETAIL`.
On a team page it finds a logo and a
"City, ST" or "City, State" location. It then joins those with the stored stub
for the page's URL into one output record.

This project models that extraction and merge logic as pure Dafny functions
over plain inputs, and proves what the code promises about them.

Inputs are abstracted as follows:

- A rankings row is its links and its `td` texts. The code picks the team links
  among them by their `href`.
- A team page is its elements in document order. Each element carries:
  - its tag;
  - which logo selectors it satisfies;
  - its `src`, `content` attribute and `textContent`;
  - its natural image size.
- The JavaScript primitives the code relies on are modelled in `Js`:
  - `trim` and the regular-expression class `\s`, which share one whitespace set;
  - string `length` in UTF-16 code units;
  - `includes`, `slice` and `findIndex`/`find`;
  - truthiness and the `||` defaults.

Modules, one per file:

| module | file | what it holds |
|---|---|---|
| `Js` | js.dfy | null-able values, truthiness, `trim`, UTF-16 length, `includes`, `slice`, `findIndex` |
| `Seqs` | seqs.dfy | the two loop shapes the code uses: push-what-each-element-yields (`FilterMap`) and stop-at-first-hit (`FirstSome`) |
| `RegExp` | regexp.dfy | the character classes of the patterns, `\w`, `\b`, and the greedy run of a class |
| `LocationPatterns` | location_patterns.dfy | a hand-written matcher for the two location regular expressions, and the regular expressions' own reading (`Decomposes`) it is proved against |
| `Rankings` | rankings.dfy | row → stub, the rank and rating tests, the `maxTeams` cut, the detail URL list |
| `Detail` | detail.dfy | the logo selector chain with its size fallback, and the location scan |
| `Merge` | merge.dfy | the stub lookup and `completeTeamData` |
| `Crawl` | crawl.dfy | the router and one step of the request handler over the store and the dataset |
| `Scenarios` | scenarios.dfy | worked inputs: rank and rating cell texts, "Springfield, IL", "Springfield, Illinois", "St. Louis, MO" |

Properties worth knowing, all proved:

- **Location matching.** The two location patterns are matched by a greedy,
  leftmost search. At any start position at most one way of laying a pattern
  over the text exists, so backtracking order never changes the result.
- **Partial cities.** A reported city never contains a dot
  (`LocationPatterns.MatchShape`). So "St. Louis, MO" is reported as city "Louis",
  state "MO" (`Scenarios.StLouis`).
- **Selector order.** The logo selector loop is decided by the order of the
  selector list, not by document order.
- **Empty logo.** An image whose `src` is empty makes the fallback run. If the
  fallback finds no sized image, `logoUrl` stays the empty string rather than
  `null` (`Detail.LogoFromEmptySource`).
- **Joining after later pages.** A team page requested from a rankings page always
  finds a stored stub with its URL: the first one stored, which may come from an
  earlier page. Stubs added by later rankings pages do not change its record.
- **Nameless links.** A team link with no text gives a stub with an empty name,
  and the record for it is "Unknown" (`Merge.JoinWithStub`).
- **Router.** A URL containing "rank.php" is handled as a rankings page even when
  it carries the `TEAM_DETAIL` label.

Details of the code that the model keeps:

- **Stub store.** `teamsData` is an array searched with `find`, so duplicate URLs
  are all stored and the first one wins. `Merge.FindStub` and
  `Merge.JoinIgnoresLaterStubs` model this.
- **Which stubs get a detail request.** Only stubs whose URL is non-empty are
  passed to `enqueueLinks`, one call per such stub, in stub order, duplicates
  included. Which of them reach the queue is up to the crawling library.
- **Negative `maxTeams`.** The stubs are cut only when `maxTeams > 0`, so a
  negative value keeps every stub.
- **Candidate length.** A candidate text passes `0 < length < 100`, with `length`
  counted in UTF-16 code units.

## Model

| member | source | states |
|---|---|---|
| Js.OrNull | main.js:245-246 | `v or null` (JavaScript's logical or with null) yields null or a truthy string, and passes a truthy value through unchanged |
| Js.OrDefault | main.js:244 | `v or d` (JavaScript's logical or with a default) yields v's string when v is truthy and the default otherwise |
| Js.TrimStartDropsLeadingSpace | main.js:49 | trimStart removes a prefix that is all whitespace and stops at a non-whitespace character |
| Js.TrimEndDropsTrailingSpace | main.js:49 | trimEnd removes a suffix that is all whitespace and stops at a non-whitespace character |
| Js.TrimIsTrimOf | main.js:49 | `trim` returns the text between the leading and the trailing whitespace, and that text neither starts nor ends with whitespace |
| Js.TrimOfUnique | main.js:49 | a string has exactly one trimmed form, so the characterisation determines `trim` |
| Js.TrimIdempotent | main.js:59 | trimming an already trimmed cell text changes nothing |
| Js.Utf16Length | main.js:194 | `length` counts UTF-16 code units: between the character count and twice it, and equal to the character count exactly when no character lies outside the Basic Multilingual Plane; `Utf16LengthAppend` and `Utf16LengthSingle` fix the exact count |
| Js.Utf16LengthAppend | main.js:194 | the length of a concatenation is the sum of the lengths, so `length` is the sum of the characters' code-unit counts |
| Js.Utf16LengthSingle | main.js:194 | one character counts one code unit inside the Basic Multilingual Plane and two outside it |
| Js.Slice | main.js:85 | `slice(start, end)` with non-negative arguments is the clamped sub-sequence, and empty when end does not exceed start |
| Js.FindIndex | main.js:240 | `findIndex` returns the first index whose element satisfies the test, and null exactly when none does |
| Seqs.FilterMapFrom | main.js:45-77 | everything a push-per-element loop collects comes from some element, and it collects nothing exactly when no element yields anything |
| Seqs.FilterMapAppend | main.js:45-77 | such a loop over two stretches in order collects what each stretch collects, in order |
| Seqs.FirstSomeIsFirst | main.js:202-214 | a stop-at-first-hit loop returns the first element's hit, and nothing exactly when no element hits |
| RegExp.RunEndIsLongestRun | main.js:198-199 | a greedy `cls*` run from i covers only class characters and stops at the end or at a character outside the class |
| RegExp.RunEndUnique | main.js:198-199 | any run that stops at a non-class character is the greedy run |
| LocationPatterns.MatchAtSound | main.js:198-199 | what the attempt at a start position finds lays the pattern over the text: uppercase letter, `[a-z\s]+`, comma, `\s*`, the state group, word boundary |
| LocationPatterns.MatchAtComplete | main.js:198-199 | every way of laying the pattern over the text is what the greedy attempt at its start finds, so backtracking order does not matter |
| LocationPatterns.StateEndComplete | main.js:198-199 | the greedy state group stops where any state group followed by `\b` stops |
| LocationPatterns.SearchFromFound | main.js:204 | the leftmost search reports the attempt of the start position it returns |
| LocationPatterns.SearchFromEarlierFail | main.js:204 | every start before the reported one fails |
| LocationPatterns.SearchFromNone | main.js:204 | the search fails only when every start fails |
| LocationPatterns.ExecIsLeftmostMatch | main.js:198-204 | `text.match(pattern)` finds a way of laying the pattern over the text that starts leftmost and is the only one at that start, and finds nothing exactly when the pattern fits nowhere |
| LocationPatterns.MatchShape | main.js:198-208 | the full match is the substring made of city, comma, optional whitespace and state; the city is an uppercase letter and one or more `[a-z\s]`; the state is two uppercase letters or an uppercase letter and lowercase letters; the next character is not a word character |
| Rankings.RatingTextIsPattern | main.js:61 | the greedy rating test accepts exactly the texts `^\d+\.\d+$` describes |
| Rankings.RatingTextOneDot | main.js:61 | a rating is digits with exactly one dot, neither first nor last |
| Rankings.RankAndRatingDisjoint | main.js:61-67 | no cell text is both a rank and a rating |
| Rankings.ScanCells | main.js:58-68 | the cell pass sets the rank only from the first cell when it is all digits, and leaves the carried rating when no cell is a rating |
| Rankings.ScanCellsRating | main.js:58-63 | the rating is null exactly when no cell is a rating, and otherwise the trimmed text of the last rating cell |
| Rankings.ExtractStubSpec | main.js:45-77 | a row yields a stub exactly when a link's href contains "team"; the stub has the first such link's trimmed text and URL, the first cell's rank, and the last rating cell's text |
| Rankings.ExtractStubsFromRows | main.js:43-79 | every stub comes from a row, and a page yields none exactly when no row has a team link |
| Rankings.ExtractStubsAppend | main.js:43-79 | stubs keep row order: the stubs of two stretches of rows are the stubs of each, concatenated |
| Rankings.ExtractStubsSingle | main.js:45-77 | one row contributes its own stub or nothing |
| Rankings.ExtractStubWellFormed | main.js:49-67 | a row's stub has a trimmed name, a rank that is all digits and a rating of the rating form |
| Rankings.ExtractedStubsWellFormed | main.js:43-79 | every stub of a page is well formed |
| Rankings.KeepTeams | main.js:85 | `maxTeams > 0` keeps the first min(maxTeams, n) stubs in order, and any other value keeps all of them |
| Rankings.DetailUrls | main.js:92-99 | the URLs passed to `enqueueLinks` are exactly the non-empty URLs of the kept stubs, no more of them than stubs |
| Rankings.DetailUrlsAppend | main.js:92-99 | the enqueue loop goes stub by stub: the URLs of two stretches of stubs are the URLs of each, concatenated in order |
| Rankings.DetailUrlsSingle | main.js:93-98 | one stub contributes its URL when that is non-empty, and nothing otherwise, so a duplicate URL is passed once per stub |
| Detail.SelectorLogoIsFirstDecisive | main.js:142-155 | the selector loop returns the value of the first selector in list order whose element is an IMG or a META, and null when there is none |
| Detail.SelectorLogoFalsy | main.js:142-158 | when no selector gives a truthy value, the loop's value is falsy, so the fallback runs |
| Detail.LogoFromSelector | main.js:142-158 | a truthy value from the first decisive selector is the logo and the fallback does not run |
| Detail.LogoFromSizedImage | main.js:158-169 | otherwise the first image with natural width and height both in [50, 500] supplies the logo |
| Detail.LogoFromNothing | main.js:131-169 | with no truthy selector value and no sized image, the logo is the selector loop's own falsy value: null, or the empty string an image without a source left |
| Detail.LogoFromEmptySource | main.js:145-169 | when the first decisive selector finds an image with an empty `src` and no image is sized, the logo is the empty string, not null |
| Detail.ResolveLogoFromSelector | main.js:131-155 | for the scraper's eight selectors, a truthy value from the first decisive one is the logo |
| Detail.ResolveLogoFromSizedImage | main.js:157-169 | for the scraper's eight selectors, the size fallback supplies the logo when they give nothing truthy |
| Detail.ResolveLogoNothing | main.js:131-169 | for the scraper's eight selectors, the logo is the selector loop's own null or empty value when neither source gives anything |
| Detail.Candidates | main.js:192-194 | every candidate text has UTF-16 length 1 to 99, and there are no more candidates than elements |
| Detail.CandidatesFromElements | main.js:192-194 | every candidate is the trimmed text of a cell, div or span of the page, and the candidates of two stretches of the page are those of each, in document order |
| Detail.CandidatesSingle | main.js:192-194 | one element contributes its trimmed text exactly when it is a cell, div or span and that text has length 1 to 99 |
| Detail.ScanLocationSpec | main.js:202-214 | the scan takes the groups of the first candidate either pattern matches; the three fields are all null exactly when none matches |
| Detail.CandidatesThenMatch | main.js:192-214 | filtering the texts first and then scanning them finds what walking the elements themselves finds |
| Detail.ScanLocationOfPage | main.js:192-214 | the location comes from the first cell, div or span whose trimmed text has length 1 to 99 and matches a pattern, the city-and-code pattern tried first; it is all null when no element does |
| Merge.FindStubSpec | main.js:240 | `teamsData.find` returns the first stub whose URL equals the request URL, and nothing exactly when no stub has it |
| Merge.JoinKeepsDetail | main.js:243-252 | city, state, location and logo always come from the team page and the URL from the request; the name is never empty, and a present rank or rating is never empty |
| Merge.JoinWithoutStub | main.js:244-246 | with no stub for the URL the record is "Unknown" with null rank and rating |
| Merge.JoinWithStub | main.js:240-246 | with a stub, the first one supplies its name unless that is empty ("Unknown" then), and its rank and rating with an empty string read as null |
| Merge.JoinKeepsExtractedFields | main.js:245-246 | a stub built by the row extractor has its rank and rating copied unchanged |
| Merge.JoinIgnoresLaterStubs | main.js:240 | stubs appended after the first one with the URL never change the record |
| Crawl.RouteOfCases | main.js:29-112 | a request takes the rankings branch exactly when its URL contains "rank.php", the detail branch exactly when it does not and is labelled TEAM_DETAIL, and no branch otherwise |
| Crawl.DefaultStartIsRankingsPage | main.js:8-29 | the default start URL, which has no label, is handled as a rankings page |
| Crawl.DetailRequestOnRankPhp | main.js:29-112 | every TEAM_DETAIL request whose URL contains "rank.php" is handled as a rankings page and pushes no record |
| Crawl.DetailRequests | main.js:92-99 | one TEAM_DETAIL request per URL, in order |
| Crawl.HandleRequestAppendOnly | main.js:24-258 | a handler call only appends to the stub store and the dataset; nothing earlier changes |
| Crawl.RankingsStep | main.js:85-99 | a rankings page appends exactly the first maxTeams stubs after the stored ones, pushes no record, and passes one TEAM_DETAIL URL to `enqueueLinks` per kept stub with a non-empty URL, in stub order |
| Crawl.DetailStep | main.js:240-257 | a team page whose handler call completes pushes exactly one record, joined from the store and the page and carrying the request URL, and leaves the store alone |
| Crawl.IgnoredStep | main.js:29-112 | a request that is neither a rankings page nor labelled TEAM_DETAIL changes nothing |
| Crawl.EnqueuedRequestFindsStub | main.js:89-252 | every detail URL a rankings page passes to `enqueueLinks` finds a stored stub with that URL, the first one stored, whatever later pages append |
| Scenarios.CellPatternExamples | main.js:59-67 | "8.45" is a rating and not a rank; "8" is a rank and not a rating; "8.4.5", ".5" and "8." are not ratings; "12th" is not a rank |
| Scenarios.SpringfieldCode | main.js:198-208 | "Springfield, IL" gives city "Springfield", state "IL" |
| Scenarios.IllinoisHasNoCode | main.js:198 | the two-letter pattern matches nowhere in "Springfield, Illinois" |
| Scenarios.SpringfieldState | main.js:197-208 | so "Springfield, Illinois" falls through to the second pattern: city "Springfield", state "Illinois" |
| Scenarios.StLouis | main.js:198-208 | "St. Louis, MO" gives city "Louis": a dot cannot be part of a city and the match starts after it |

## Left out

- Actor lifecycle, input reading and `Actor.pushData` (main.js:1-14, 257, 266-271) are I/O. Pushing a record is modelled as appending it to the dataset sequence.
- The crawler configuration is not modelled: `maxRequestsPerCrawl`, headless mode and the handler timeout (main.js:19-22).
- The waits, the screenshot, the logging, `debugInfo`, the diagnostic `locationSelectors` loop and the page-text sample are not modelled (main.js:33-36, 116-120, 171-189, 216-237). When a handler call completes they have no effect on the data.
- Crawl.HandleRequest: handler calls that throw are not modelled. `waitForSelector` with its 30-second timeout (main.js:33, 116), `enqueueLinks` or `page.$` can throw; the call then stops early, the crawler retries the request, and after the last retry `failedRequestHandler` runs (main.js:261-263). A retry after a throw past main.js:89 pushes the page's stubs into the store again. Every step lemma speaks of a call that completes.
- Pagination is not modelled: the "Next" detection and its `enqueueLinks` call (main.js:101-108). It belongs to the crawling library, and it can enqueue any number of links.
- `failedRequestHandler` (main.js:261-263) only logs.
- DOM semantics are inputs, not models:
  - which elements a CSS selector matches;
  - how `href` is resolved against the page URL;
  - how `textContent` aggregates nested elements;
  - image decoding and its natural size.
- The `teamUrl` read from `window.location.href` inside the page is not modelled. It never reaches the record, which uses the request URL.
- Crawl.RankingsStep: `enqueued` is the list of URLs handed to `enqueueLinks`, not the request queue. The library's URL filtering is not modelled: its default same-hostname strategy, which drops URLs on another host, and the `maxRequestsPerCrawl` budget. Neither is its de-duplication of URLs the queue already holds.
- The crawler's request de-duplication is not modelled, nor its URL normalisation. A detail request's URL is taken to be the stub URL it was enqueued with.
- Concurrency between handler calls is not modelled. The handler is a sequential step function.
- Rankings.KeepTeams: models `maxTeams` as an integer only, because the code does not check the input's type. Non-integer values are left out: `slice` truncates a fraction such as 2.5 to 2, and `>` and `slice` coerce a non-number.

=== FILE: crawl.dfy ===
/**
  The request handler of the crawler (main.js:24-258) as a step function over the
  scraper's state: the stubs stored so far and the records pushed so far. A page is
  given as what the extraction reads from it; fetching, waiting and rendering are
  not modelled.
 */
module Crawl {
  import opened Js
  import opened Rankings
  import opened Detail
  import opened Merge

  /** A crawl request: its URL and its label (null for the start URL). */
  datatype Request = Request(url: string, requestLabel: Option<string>)

  /** Which branch of the handler a request takes. */
  datatype Route = RankingsPage | TeamDetailPage | Ignored

  /** The label the handler gives the team detail requests it enqueues. */
  const DetailLabel := "TEAM_DETAIL"

  /**
    The branch taken (main.js:29, 112): a URL containing "rank.php" is a rankings page
    whatever its label; otherwise only the label TEAM_DETAIL leads anywhere.
   */
  function RouteOf(req: Request): (r: Route) {
    if Includes(req.url, "rank.php") then RankingsPage
    else if req.requestLabel == Some(DetailLabel) then TeamDetailPage
    else Ignored
  }

  /** The default start URL (main.js:8). */
  const DefaultRankingUrl := "https://myhockeyrankings.com/rank.php?y=2025&v=123"

  /** The default start URL, which has no label, is handled as a rankings page. */
  lemma DefaultStartIsRankingsPage()
    ensures RouteOf(Request(DefaultRankingUrl, None)) == RankingsPage
  {
    assert OccursAt(DefaultRankingUrl, "rank.php", 29);
  }

  /**
    A request takes exactly one branch: the rankings branch exactly when its URL
    contains "rank.php", even when it carries the TEAM_DETAIL label; the detail branch
    exactly when it does not and carries that label.
   */
  lemma RouteOfCases(req: Request)
    ensures RouteOf(req) == RankingsPage <==> Includes(req.url, "rank.php")
    ensures RouteOf(req) == TeamDetailPage <==> !Includes(req.url, "rank.php") && req.requestLabel == Some(DetailLabel)
    ensures RouteOf(req) == Ignored <==> !Includes(req.url, "rank.php") && req.requestLabel != Some(DetailLabel)
  {
  }

  /**
    A TEAM_DETAIL request whose URL contains "rank.php" is handled as a rankings page,
    not as a team page: it pushes no record, whatever the page holds.
   */
  lemma DetailRequestOnRankPhp(st: State, req: Request, page: Page, maxTeams: int)
    requires Includes(req.url, "rank.php") && req.requestLabel == Some(DetailLabel)
    ensures RouteOf(req) == RankingsPage
    ensures HandleRequest(st, req, page, maxTeams).state.dataset == st.dataset
  {
  }

  /** The scraper's state between requests: `teamsData` and the dataset. */
  datatype State = State(store: seq<TeamStub>, dataset: seq<TeamRecord>)

  /** What the handler reads from a page: the table rows of a rankings page, the elements of a detail page. */
  datatype Page = Page(rows: seq<Row>, doc: seq<Element>)

  /** The new state and the team detail requests enqueued, in order. */
  datatype Outcome = Outcome(state: State, enqueued: seq<Request>)

  /** One detail request per URL. */
  function DetailRequests(urls: seq<string>): (r: seq<Request>)
    ensures |r| == |urls|
    ensures forall i :: 0 <= i < |r| ==> r[i] == Request(urls[i], Some(DetailLabel))
  {
    if urls == [] then [] else [Request(urls[0], Some(DetailLabel))] + DetailRequests(urls[1..])
  }

  /** One call of the request handler. */
  function HandleRequest(st: State, req: Request, page: Page, maxTeams: int): (r: Outcome) {
    match RouteOf(req)
    case RankingsPage =>
      var kept := KeepTeams(ExtractStubs(page.rows), maxTeams);
      Outcome(State(st.store + kept, st.dataset), DetailRequests(DetailUrls(kept)))
    case TeamDetailPage =>
      Outcome(State(st.store, st.dataset + [Join(st.store, req.url, ExtractDetail(page.doc))]), [])
    case Ignored =>
      Outcome(st, [])
  }

  /** The handler only appends: earlier stubs and records are never changed or removed. */
  lemma HandleRequestAppendOnly(st: State, req: Request, page: Page, maxTeams: int)
    ensures var st' := HandleRequest(st, req, page, maxTeams).state;
      && |st.store| <= |st'.store| && st'.store[..|st.store|] == st.store
      && |st.dataset| <= |st'.dataset| && st'.dataset[..|st.dataset|] == st.dataset
  {
    var st' := HandleRequest(st, req, page, maxTeams).state;
    match RouteOf(req)
    case RankingsPage =>
      assert st'.store[..|st.store|] == st.store;
      assert st'.dataset == st.dataset;
    case TeamDetailPage =>
      assert st'.dataset[..|st.dataset|] == st.dataset;
    case Ignored =>
  }

  /**
    A rankings page stores the first maxTeams stubs of its rows (all of them when
    maxTeams is not positive) after the earlier ones, pushes nothing, and enqueues
    one TEAM_DETAIL request per stored stub with a URL, in stub order (see
    `DetailUrlsAppend` and `DetailUrlsSingle`).
   */
  lemma RankingsStep(st: State, req: Request, page: Page, maxTeams: int)
    requires Includes(req.url, "rank.php")
    ensures var o := HandleRequest(st, req, page, maxTeams);
      var stubs := ExtractStubs(page.rows);
      var n := if maxTeams > 0 && maxTeams < |stubs| then maxTeams else |stubs|;
      && o.state.store == st.store + stubs[..n]
      && o.state.dataset == st.dataset
      && o.enqueued == DetailRequests(DetailUrls(stubs[..n]))
      && (forall r :: r in o.enqueued ==>
            r.requestLabel == Some(DetailLabel) && r.url != "" && exists i :: 0 <= i < n && stubs[i].teamUrl == r.url)
      && (forall i :: 0 <= i < n && stubs[i].teamUrl != "" ==> Request(stubs[i].teamUrl, Some(DetailLabel)) in o.enqueued)
  {
    var o := HandleRequest(st, req, page, maxTeams);
    var stubs := ExtractStubs(page.rows);
    var n := if maxTeams > 0 && maxTeams < |stubs| then maxTeams else |stubs|;
    var kept := KeepTeams(stubs, maxTeams);
    assert kept == stubs[..n];
    var urls := DetailUrls(kept);
    forall r | r in o.enqueued
      ensures r.requestLabel == Some(DetailLabel) && r.url != "" && exists i :: 0 <= i < n && stubs[i].teamUrl == r.url
    {
      var k :| 0 <= k < |o.enqueued| && o.enqueued[k] == r;
      assert urls[k] in urls;
      var i :| 0 <= i < |kept| && kept[i].teamUrl == urls[k];
      assert stubs[i] == kept[i];
    }
    forall i | 0 <= i < n && stubs[i].teamUrl != ""
      ensures Request(stubs[i].teamUrl, Some(DetailLabel)) in o.enqueued
    {
      assert kept[i] == stubs[i];
      var k :| 0 <= k < |urls| && urls[k] == kept[i].teamUrl;
      assert o.enqueued[k] == Request(stubs[i].teamUrl, Some(DetailLabel));
    }
  }

  /**
    A team detail page whose URL does not contain "rank.php" pushes exactly one
    record, joined from the stored stubs and the page, and changes nothing else.
   */
  lemma DetailStep(st: State, req: Request, page: Page, maxTeams: int)
    requires !Includes(req.url, "rank.php") && req.requestLabel == Some(DetailLabel)
    ensures var o := HandleRequest(st, req, page, maxTeams);
      && o.state.store == st.store
      && o.state.dataset == st.dataset + [Join(st.store, req.url, ExtractDetail(page.doc))]
      && o.state.dataset[|st.dataset|].teamUrl == req.url
      && o.enqueued == []
  {
  }

  /** A request that is neither a rankings page nor labelled TEAM_DETAIL changes nothing. */
  lemma IgnoredStep(st: State, req: Request, page: Page, maxTeams: int)
    requires !Includes(req.url, "rank.php") && req.requestLabel != Some(DetailLabel)
    ensures HandleRequest(st, req, page, maxTeams) == Outcome(st, [])
  {
  }

  /**
    Every detail request a rankings page passes to `enqueueLinks` finds a stored stub
    with its URL when it is handled, however many stubs later pages add in between,
    so its record is never the "Unknown" one for want of a stub. The stub found is the
    first one stored with that URL, which may come from an earlier page.
   */
  lemma EnqueuedRequestFindsStub(st: State, req: Request, page: Page, maxTeams: int, more: seq<TeamStub>, r: Request)
    requires Includes(req.url, "rank.php")
    requires r in HandleRequest(st, req, page, maxTeams).enqueued
    ensures FindStub(HandleRequest(st, req, page, maxTeams).state.store + more, r.url).Some?
    ensures FindStub(HandleRequest(st, req, page, maxTeams).state.store + more, r.url).value.teamUrl == r.url
  {
    var o := HandleRequest(st, req, page, maxTeams);
    var kept := KeepTeams(ExtractStubs(page.rows), maxTeams);
    var urls := DetailUrls(kept);
    var k :| 0 <= k < |o.enqueued| && o.enqueued[k] == r;
    assert urls[k] in urls;
    var i :| 0 <= i < |kept| && kept[i].teamUrl == urls[k];
    assert (o.state.store + more)[|st.store| + i] == kept[i];
    FindStubSpec(o.state.store + more, r.url);
  }
}

=== FILE: detail.dfy ===
/**
  The team-detail half of the scraper's page extraction (main.js:123-214): the
  logo found by a fixed, ordered list of selectors with a size-based fallback,
  and the location found by scanning the page's cell, div and span texts for
  the two location patterns.
 */
module Detail {
  import opened Js
  import opened LocationPatterns
  import opened Seqs

  /**
    One element of the rendered team page. A page is its elements in document
    order. Selector matching is not modelled: `selectors` lists which of the
    scraper's logo selectors the element satisfies. `src` is the `src` property of
    an image (the empty string when it has none), `content` the `content` attribute
    (null when absent), and the natural size is the decoded image's size.
   */
  datatype Element = Element(
    tagName: string,
    selectors: set<string>,
    src: string,
    content: Option<string>,
    textContent: string,
    naturalWidth: nat,
    naturalHeight: nat)

  /** The logo selectors, in the order they are tried. */
  const LogoSelectors: seq<string> := [
    "img[class*=\"logo\"]",
    "img[class*=\"team\"]",
    "img[alt*=\"logo\"]",
    "img[alt*=\"team\"]",
    ".logo img",
    ".team-logo img",
    ".team-info img",
    "meta[property=\"og:image\"]"
  ]

  /** `document.querySelector(sel)`: the position of the first element in document order that satisfies sel. */
  function QuerySelector(doc: seq<Element>, sel: string): (r: Option<nat>) {
    FindIndex(doc, (e: Element) => sel in e.selectors)
  }

  /** The selector finds an element that ends the selector loop: an IMG or a META. */
  predicate Decisive(doc: seq<Element>, sel: string) {
    match QuerySelector(doc, sel)
    case None => false
    case Some(i) => doc[i].tagName == "IMG" || doc[i].tagName == "META"
  }

  /** What a decisive selector sets `logoUrl` to: an image's `src`, a meta tag's `content` attribute. */
  function HitValue(doc: seq<Element>, sel: string): (r: Option<string>)
    requires Decisive(doc, sel)
  {
    var e := doc[QuerySelector(doc, sel).value];
    if e.tagName == "IMG" then Some(e.src) else e.content
  }

  /** sels[k] is the first decisive selector of sels. */
  predicate FirstDecisive(doc: seq<Element>, sels: seq<string>, k: nat)
    requires k < |sels|
  {
    Decisive(doc, sels[k]) && forall j :: 0 <= j < k ==> !Decisive(doc, sels[j])
  }

  /**
    The selector loop (main.js:142-155): the value of the first selector, in list
    order, whose element is an IMG or a META; null when there is none. The list
    order decides, not where the elements sit in the document.
   */
  function SelectorLogo(doc: seq<Element>, sels: seq<string>): (r: Option<string>) {
    match FirstSome(sels, (sel: string) => SelectorHit(doc, sel))
    case None => None
    case Some(v) => v
  }

  /** What one selector makes the loop do: stop with a value when it is decisive, go on otherwise. */
  function SelectorHit(doc: seq<Element>, sel: string): (r: Option<Option<string>>) {
    if Decisive(doc, sel) then Some(HitValue(doc, sel)) else None
  }

  /** The loop's value is null when no selector is decisive, and otherwise the first decisive selector's value. */
  lemma SelectorLogoIsFirstDecisive(doc: seq<Element>, sels: seq<string>)
    ensures (forall k :: 0 <= k < |sels| ==> !Decisive(doc, sels[k])) ==> SelectorLogo(doc, sels).None?
    ensures forall k :: 0 <= k < |sels| && FirstDecisive(doc, sels, k) ==> SelectorLogo(doc, sels) == HitValue(doc, sels[k])
  {
    var f := (sel: string) => SelectorHit(doc, sel);
    FirstSomeIsFirst(sels, f);
    assert forall k :: 0 <= k < |sels| && FirstDecisive(doc, sels, k) ==> FirstYielding(sels, f, k);
  }

  /** An image the fallback accepts: natural width and height both in [50, 500]. */
  predicate IsSizedImage(e: Element) {
    e.tagName == "IMG" && 50 <= e.naturalWidth <= 500 && 50 <= e.naturalHeight <= 500
  }

  /** doc[i] is the first image the fallback accepts. */
  predicate FirstSizedImage(doc: seq<Element>, i: nat)
    requires i < |doc|
  {
    IsSizedImage(doc[i]) && forall j :: 0 <= j < i ==> !IsSizedImage(doc[j])
  }

  /**
    The logo URL (main.js:131-169): the selector loop's value when it is truthy;
    otherwise the `src` of the first image sized 50 to 500 pixels both ways; and when
    there is no such image, the selector loop's value as it was (null, or the empty
    string of an image without a source).
   */
  function ResolveLogo(doc: seq<Element>): (r: Option<string>) {
    LogoFrom(doc, LogoSelectors)
  }

  /** The logo resolution for a given selector list. */
  function LogoFrom(doc: seq<Element>, sels: seq<string>): (r: Option<string>) {
    var fromSelectors := SelectorLogo(doc, sels);
    if Truthy(fromSelectors) then fromSelectors
    else match FindIndex(doc, IsSizedImage)
      case Some(i) => Some(doc[i].src)
      case None => fromSelectors
  }

  /** No selector of sels gives the loop a truthy value: each one that would end the loop gives a falsy one. */
  predicate NoTruthyHit(doc: seq<Element>, sels: seq<string>) {
    forall k :: 0 <= k < |sels| && FirstDecisive(doc, sels, k) ==> !Truthy(HitValue(doc, sels[k]))
  }

  /** A truthy value of the first decisive selector is the logo. */
  lemma LogoFromSelector(doc: seq<Element>, sels: seq<string>, k: nat)
    requires k < |sels| && FirstDecisive(doc, sels, k) && Truthy(HitValue(doc, sels[k]))
    ensures LogoFrom(doc, sels) == HitValue(doc, sels[k])
  {
    SelectorLogoIsFirstDecisive(doc, sels);
  }

  /** When the selectors give nothing truthy, the first image sized 50 to 500 both ways is the logo. */
  lemma LogoFromSizedImage(doc: seq<Element>, sels: seq<string>, i: nat)
    requires NoTruthyHit(doc, sels)
    requires i < |doc| && FirstSizedImage(doc, i)
    ensures LogoFrom(doc, sels) == Some(doc[i].src)
  {
    SelectorLogoFalsy(doc, sels);
  }

  /**
    When neither the selectors nor the size fallback give anything, the logo is the
    selector loop's own falsy value: null, or the empty string an image without a
    source left behind.
   */
  lemma LogoFromNothing(doc: seq<Element>, sels: seq<string>)
    requires NoTruthyHit(doc, sels)
    requires forall i :: 0 <= i < |doc| ==> !IsSizedImage(doc[i])
    ensures LogoFrom(doc, sels) == SelectorLogo(doc, sels)
    ensures !Truthy(LogoFrom(doc, sels))
  {
    SelectorLogoFalsy(doc, sels);
  }

  /**
    An image without a source found by the first decisive selector, on a page with no
    sized image, leaves the logo as the empty string, not null.
   */
  lemma LogoFromEmptySource(doc: seq<Element>, sels: seq<string>, k: nat)
    requires k < |sels| && FirstDecisive(doc, sels, k) && HitValue(doc, sels[k]) == Some("")
    requires forall i :: 0 <= i < |doc| ==> !IsSizedImage(doc[i])
    ensures LogoFrom(doc, sels) == Some("")
  {
    SelectorLogoIsFirstDecisive(doc, sels);
  }

  /** The selector loop's value is falsy when no selector gives a truthy one. */
  lemma SelectorLogoFalsy(doc: seq<Element>, sels: seq<string>)
    requires NoTruthyHit(doc, sels)
    ensures !Truthy(SelectorLogo(doc, sels))
  {
    SelectorLogoIsFirstDecisive(doc, sels);
    if k :| 0 <= k < |sels| && Decisive(doc, sels[k]) {
      FirstDecisiveExists(doc, sels, k);
    }
  }

  /** When some selector is decisive, one of them is the first. */
  lemma {:induction false} FirstDecisiveExists(doc: seq<Element>, sels: seq<string>, k: nat)
    requires k < |sels| && Decisive(doc, sels[k])
    ensures exists j :: 0 <= j <= k && FirstDecisive(doc, sels, j)
  {
    if !FirstDecisive(doc, sels, k) {
      var j :| 0 <= j < k && Decisive(doc, sels[j]);
      FirstDecisiveExists(doc, sels, j);
    }
  }

  /** The page's logo when a selector of the scraper's list gives a truthy value. */
  lemma ResolveLogoFromSelector(doc: seq<Element>, k: nat)
    requires k < |LogoSelectors| && FirstDecisive(doc, LogoSelectors, k) && Truthy(HitValue(doc, LogoSelectors[k]))
    ensures ResolveLogo(doc) == HitValue(doc, LogoSelectors[k])
  {
    LogoFromSelector(doc, LogoSelectors, k);
  }

  /** The page's logo when the scraper's selectors give nothing truthy and a sized image exists. */
  lemma ResolveLogoFromSizedImage(doc: seq<Element>, i: nat)
    requires NoTruthyHit(doc, LogoSelectors)
    requires i < |doc| && FirstSizedImage(doc, i)
    ensures ResolveLogo(doc) == Some(doc[i].src)
  {
    LogoFromSizedImage(doc, LogoSelectors, i);
  }

  /** The page's logo is the selector loop's null or empty value when neither source gives anything. */
  lemma ResolveLogoNothing(doc: seq<Element>)
    requires NoTruthyHit(doc, LogoSelectors)
    requires forall i :: 0 <= i < |doc| ==> !IsSizedImage(doc[i])
    ensures ResolveLogo(doc) == SelectorLogo(doc, LogoSelectors)
    ensures !Truthy(ResolveLogo(doc))
  {
    LogoFromNothing(doc, LogoSelectors);
  }

  /** The elements whose text the location scan reads: `td, div, span`. */
  predicate IsTextElement(e: Element) {
    e.tagName == "TD" || e.tagName == "DIV" || e.tagName == "SPAN"
  }

  /** A trimmed text the scan keeps: JavaScript length 1 to 99. */
  predicate IsCandidateText(t: string) {
    0 < Utf16Length(t) < 100
  }

  /** What an element contributes to the candidate list: its trimmed text, when it is a cell, div or span and that text has length 1 to 99. */
  function CandidateOf(e: Element): (r: Option<string>) {
    var t := Trim(e.textContent);
    if IsTextElement(e) && IsCandidateText(t) then Some(t) else None
  }

  /** The trimmed texts of the page's cells, divs and spans that have length 1 to 99, in document order. */
  function Candidates(doc: seq<Element>): (r: seq<string>)
    ensures forall t :: t in r ==> IsCandidateText(t)
    ensures |r| <= |doc|
  {
    FilterMapFrom(doc, CandidateOf);
    FilterMap(doc, CandidateOf)
  }

  /**
    Every candidate is the trimmed text of a qualifying element, and the candidates of
    two stretches of the page are those of each, in document order.
   */
  lemma CandidatesFromElements(doc: seq<Element>, more: seq<Element>)
    ensures forall t :: t in Candidates(doc) ==>
      exists i :: 0 <= i < |doc| && IsTextElement(doc[i]) && t == Trim(doc[i].textContent)
    ensures Candidates(doc + more) == Candidates(doc) + Candidates(more)
  {
    FilterMapFrom(doc, CandidateOf);
    FilterMapAppend(doc, more, CandidateOf);
  }

  /** A single element contributes its trimmed text when it qualifies, and nothing otherwise. */
  lemma CandidatesSingle(e: Element)
    ensures Candidates([e]) == (if IsTextElement(e) && IsCandidateText(Trim(e.textContent)) then [Trim(e.textContent)] else [])
  {
    FilterMapSingle(e, CandidateOf);
  }

  /** One candidate tried against the location patterns, the city-and-code form first. */
  function MatchLocation(text: string): (r: Option<RegexMatch>) {
    match Match(text, CityCode)
    case Some(m) => Some(m)
    case None => Match(text, CityState)
  }

  /** The three location fields; all null when nothing matched. */
  datatype Location = Location(fullLocation: Option<string>, city: Option<string>, state: Option<string>)

  const NoLocation := Location(None, None, None)

  function LocationOf(m: RegexMatch): (r: Location) {
    Location(Some(m.full), Some(m.city), Some(m.state))
  }

  /** The location fields of a match, or all null. */
  function LocationFrom(m: Option<RegexMatch>): (r: Location) {
    match m
    case None => NoLocation
    case Some(m) => LocationOf(m)
  }

  /**
    The candidate loop (main.js:202-214): the groups of the first candidate, in
    document order, that either pattern matches; all three fields null when no
    candidate matches.
   */
  function ScanLocation(cands: seq<string>): (r: Location) {
    LocationFrom(FirstSome(cands, MatchLocation))
  }

  /** The scan takes the first candidate that matches, and finds nothing exactly when none does. */
  lemma ScanLocationSpec(cands: seq<string>)
    ensures ScanLocation(cands).fullLocation.None? <==> forall i :: 0 <= i < |cands| ==> MatchLocation(cands[i]).None?
    ensures ScanLocation(cands).fullLocation.None? ==> ScanLocation(cands) == NoLocation
    ensures forall i :: 0 <= i < |cands| && FirstYielding(cands, MatchLocation, i) ==>
      ScanLocation(cands) == LocationOf(MatchLocation(cands[i]).value)
  {
    FirstSomeIsFirst(cands, MatchLocation);
  }

  /** What an element contributes to the location scan: a match of its trimmed text when it is a candidate. */
  function ElementMatch(e: Element): (r: Option<RegexMatch>) {
    var t := Trim(e.textContent);
    if IsTextElement(e) && IsCandidateText(t) then MatchLocation(t) else None
  }

  /** Scanning the candidate list finds what walking the elements themselves finds. */
  lemma {:induction false} CandidatesThenMatch(doc: seq<Element>)
    ensures FirstSome(Candidates(doc), MatchLocation) == FirstSome(doc, ElementMatch)
  {
    if doc != [] {
      CandidatesThenMatch(doc[1..]);
      var t := Trim(doc[0].textContent);
      if IsTextElement(doc[0]) && IsCandidateText(t) {
        assert Candidates(doc) == [t] + Candidates(doc[1..]);
      }
    }
  }

  /**
    Filtering the page's texts and then scanning them is the same as taking the
    first element, in document order, that is a cell, div or span whose trimmed text
    has length 1 to 99 and matches a pattern; nothing is found when no element is.
   */
  lemma ScanLocationOfPage(doc: seq<Element>)
    ensures (forall i :: 0 <= i < |doc| ==> ElementMatch(doc[i]).None?) ==> ScanLocation(Candidates(doc)) == NoLocation
    ensures forall i :: 0 <= i < |doc| && FirstYielding(doc, ElementMatch, i) ==>
      ScanLocation(Candidates(doc)) == LocationOf(ElementMatch(doc[i]).value)
  {
    CandidatesThenMatch(doc);
    FirstSomeIsFirst(doc, ElementMatch);
  }

  /** What the page extraction returns besides diagnostics. */
  datatype TeamDetail = TeamDetail(city: Option<string>, state: Option<string>, fullLocation: Option<string>, logoUrl: Option<string>)

  /** The detail extraction of one page: its location fields and its logo. */
  function ExtractDetail(doc: seq<Element>): (r: TeamDetail) {
    var loc := ScanLocation(Candidates(doc));
    TeamDetail(loc.city, loc.state, loc.fullLocation, ResolveLogo(doc))
  }
}

=== FILE: js.dfy ===
/**
  The JavaScript value and string primitives the scraper's extraction code relies on:
  `null`-able values and truthiness, `String.prototype.trim`, `length` counted in
  UTF-16 code units, `String.prototype.includes`, `Array.prototype.slice` and
  `Array.prototype.findIndex`.
 */
module Js {

  /** A value that is either JavaScript `null` or a value of type T. */
  datatype Option<+T> = None | Some(value: T)

  /** A `null`-able string is truthy unless it is `null` or the empty string. */
  predicate Truthy(v: Option<string>) {
    v.Some? && v.value != ""
  }

  /** `v || null`: a falsy value collapses to `null`, a truthy one passes unchanged. */
  function OrNull(v: Option<string>): (r: Option<string>)
    ensures r.None? || Truthy(r)
    ensures Truthy(v) ==> r == v
    ensures !Truthy(v) ==> r.None?
  {
    if Truthy(v) then v else None
  }

  /** `v || d` for a `null`-able string v and a string default d. */
  function OrDefault(v: Option<string>, d: string): (r: string)
    ensures Truthy(v) ==> r == v.value
    ensures !Truthy(v) ==> r == d
  {
    if Truthy(v) then v.value else d
  }

  /**
    The code points JavaScript's `trim` removes and its regular-expression class `\s`
    matches: the WhiteSpace code points (tab, vertical tab, form feed, space,
    no-break space, byte order mark and the Unicode category Zs) and the
    LineTerminator code points (line feed, carriage return, line and paragraph
    separators) of ECMA-262.
   */
  predicate IsSpace(c: char) {
    || c == '\t' || c == '\n' || c == '\U{000B}' || c == '\U{000C}' || c == '\r'
    || c == ' ' || c == '\U{00A0}' || c == '\U{1680}'
    || ('\U{2000}' <= c <= '\U{200A}')
    || c == '\U{2028}' || c == '\U{2029}' || c == '\U{202F}' || c == '\U{205F}'
    || c == '\U{3000}' || c == '\U{FEFF}'
  }

  /** `trimStart`. */
  function TrimStart(s: string): (r: string) {
    if |s| > 0 && IsSpace(s[0]) then TrimStart(s[1..]) else s
  }

  /** `trimEnd`. */
  function TrimEnd(s: string): (r: string) {
    if |s| > 0 && IsSpace(s[|s| - 1]) then TrimEnd(s[..|s| - 1]) else s
  }

  /** `trimStart` drops the leading whitespace and nothing else. */
  lemma {:induction false} TrimStartDropsLeadingSpace(s: string)
    ensures var r := TrimStart(s);
      && |r| <= |s| && r == s[|s| - |r|..]
      && (forall k :: 0 <= k < |s| - |r| ==> IsSpace(s[k]))
      && (r == [] || !IsSpace(r[0]))
  {
    if |s| > 0 && IsSpace(s[0]) {
      TrimStartDropsLeadingSpace(s[1..]);
    }
  }

  /** `trimEnd` drops the trailing whitespace and nothing else. */
  lemma {:induction false} TrimEndDropsTrailingSpace(s: string)
    ensures var r := TrimEnd(s);
      && |r| <= |s| && r == s[..|r|]
      && (forall k :: |r| <= k < |s| ==> IsSpace(s[k]))
      && (r == [] || !IsSpace(r[|r| - 1]))
  {
    if |s| > 0 && IsSpace(s[|s| - 1]) {
      TrimEndDropsTrailingSpace(s[..|s| - 1]);
    }
  }

  /**
    s is i whitespace characters, then r, then only whitespace, and r neither
    starts nor ends with whitespace.
   */
  predicate TrimmedAt(r: string, s: string, i: nat) {
    && i + |r| <= |s|
    && s[i..i + |r|] == r
    && (forall k :: 0 <= k < i ==> IsSpace(s[k]))
    && (forall k :: i + |r| <= k < |s| ==> IsSpace(s[k]))
    && (r == [] || (!IsSpace(r[0]) && !IsSpace(r[|r| - 1])))
  }

  /** r is what `s.trim()` must return. */
  ghost predicate IsTrimOf(r: string, s: string) {
    exists i :: TrimmedAt(r, s, i)
  }

  /** `s.trim()`. */
  function Trim(s: string): (r: string) {
    TrimEnd(TrimStart(s))
  }

  /** `trim` removes exactly the leading and trailing whitespace. */
  lemma TrimIsTrimOf(s: string)
    ensures IsTrimOf(Trim(s), s)
  {
    TrimStartThenEnd(s);
    assert TrimmedAt(Trim(s), s, |s| - |TrimStart(s)|);
  }

  /** Dropping leading then trailing whitespace leaves the trimmed form. */
  lemma TrimStartThenEnd(s: string)
    ensures |TrimStart(s)| <= |s|
    ensures TrimmedAt(TrimEnd(TrimStart(s)), s, |s| - |TrimStart(s)|)
  {
    var t := TrimStart(s);
    var r := TrimEnd(t);
    TrimStartDropsLeadingSpace(s);
    TrimEndDropsTrailingSpace(t);
    PrefixOfSuffix(s, t, r);
  }

  /** A prefix r of the suffix t of s sits in s where t starts, and what follows it in s is what follows it in t. */
  lemma PrefixOfSuffix(s: string, t: string, r: string)
    requires |t| <= |s| && t == s[|s| - |t|..]
    requires |r| <= |t| && r == t[..|r|]
    requires forall k :: |r| <= k < |t| ==> IsSpace(t[k])
    ensures s[|s| - |t|..|s| - |t| + |r|] == r
    ensures forall k :: |s| - |t| + |r| <= k < |s| ==> IsSpace(s[k])
    ensures r != [] ==> r[0] == t[0]
  {
    var i := |s| - |t|;
    forall k | i + |r| <= k < |s|
      ensures IsSpace(s[k])
    {
      assert s[k] == t[k - i];
    }
  }

  /** Where the trimmed form sits: it is empty exactly when s is all whitespace, and
      otherwise it runs from the first to the last non-whitespace character. */
  lemma TrimmedAtBounds(r: string, s: string, i: nat)
    requires TrimmedAt(r, s, i)
    ensures r == [] <==> forall k :: 0 <= k < |s| ==> IsSpace(s[k])
    ensures r != [] ==> !IsSpace(s[i]) && !IsSpace(s[i + |r| - 1])
  {
    if r != [] {
      assert s[i] == r[0];
      assert s[i + |r| - 1] == r[|r| - 1];
    }
  }

  /** A string has only one trimmed form. */
  lemma TrimOfUnique(r1: string, r2: string, s: string)
    requires IsTrimOf(r1, s) && IsTrimOf(r2, s)
    ensures r1 == r2
  {
    var i1: nat :| TrimmedAt(r1, s, i1);
    var i2: nat :| TrimmedAt(r2, s, i2);
    TrimmedAtBounds(r1, s, i1);
    TrimmedAtBounds(r2, s, i2);
    if r1 != [] {
      assert i1 == i2;
      assert i1 + |r1| == i2 + |r2|;
    }
  }

  /** Trimming twice is trimming once. */
  lemma TrimIdempotent(s: string)
    ensures Trim(Trim(s)) == Trim(s)
  {
    var t := Trim(s);
    TrimIsTrimOf(s);
    TrimIsTrimOf(t);
    var i :| TrimmedAt(t, s, i);
    assert t[0..0 + |t|] == t;
    assert TrimmedAt(t, t, 0);
    TrimOfUnique(Trim(t), t, t);
  }

  /** The UTF-16 width of one character: two code units outside the Basic Multilingual Plane. */
  function CodeUnits(c: char): (r: nat) {
    if c as int < 0x1_0000 then 1 else 2
  }

  /** A string's JavaScript `length`, which counts UTF-16 code units. */
  function Utf16Length(s: string): (n: nat)
    ensures |s| <= n <= 2 * |s|
    ensures n == |s| <==> forall k :: 0 <= k < |s| ==> s[k] as int < 0x1_0000
  {
    if s == [] then 0 else CodeUnits(s[0]) + Utf16Length(s[1..])
  }

  /** The length of a concatenation is the sum of the lengths: characters are counted one by one. */
  lemma {:induction false} Utf16LengthAppend(a: string, b: string)
    ensures Utf16Length(a + b) == Utf16Length(a) + Utf16Length(b)
    decreases |a|
  {
    if a == [] {
      assert a + b == b;
    } else {
      assert (a + b)[1..] == a[1..] + b;
      Utf16LengthAppend(a[1..], b);
    }
  }

  /** A single character counts its own code units: one in the Basic Multilingual Plane, two outside it. */
  lemma Utf16LengthSingle(c: char)
    ensures Utf16Length([c]) == CodeUnits(c)
  {
    assert [c][1..] == [];
  }

  /** `s.includes(t)`: t occurs in s as a contiguous substring. */
  predicate Includes(s: string, t: string) {
    exists i :: 0 <= i <= |s| - |t| && OccursAt(s, t, i)
  }

  /** t occurs in s starting at position i. */
  predicate OccursAt(s: string, t: string, i: nat) {
    i + |t| <= |s| && s[i..i + |t|] == t
  }

  /** How `slice` turns a relative index into a position of a sequence of length len. */
  function SliceIndex(rel: int, len: nat): (k: nat)
    ensures k <= len
    ensures 0 <= rel ==> k == (if rel < len then rel else len)
    ensures rel < 0 ==> k == (if len + rel < 0 then 0 else len + rel)
  {
    if rel < 0 then (if len + rel < 0 then 0 else len + rel)
    else if rel < len then rel else len
  }

  /** `s.slice(start, end)` for integer arguments. */
  function Slice<T>(s: seq<T>, start: int, end: int): (r: seq<T>)
    ensures |r| <= |s|
    ensures 0 <= start && start <= end ==> r == s[(if start < |s| then start else |s|)..(if end < |s| then end else |s|)]
    ensures 0 <= end <= start ==> r == []
  {
    var k := SliceIndex(start, |s|);
    var f := SliceIndex(end, |s|);
    if k < f then s[k..f] else []
  }

  /**
    `s.findIndex(f)`, with `null` where JavaScript returns -1: the first index whose
    element satisfies f. `Array.prototype.find` and `querySelector` are this search
    followed by reading the element.
   */
  function FindIndex<T>(s: seq<T>, f: T -> bool): (r: Option<nat>)
    ensures r.Some? ==> r.value < |s| && f(s[r.value])
    ensures r.Some? ==> forall j :: 0 <= j < r.value ==> !f(s[j])
    ensures r.None? <==> forall j :: 0 <= j < |s| ==> !f(s[j])
  {
    if |s| == 0 then None
    else if f(s[0]) then Some(0)
    else match FindIndex(s[1..], f)
      case None => None
      case Some(i) => Some(i + 1)
  }
}

=== FILE: location_patterns.dfy ===
/**
  A hand-written matcher for the two location patterns of the team detail page,
  main.js:197-200, as `String.prototype.match` runs them (no `g` flag):

    CityCode   /([A-Z][a-z\s]+),\s*([A-Z]{2})\b/       "Springfield, IL"
    CityState  /([A-Z][a-z\s]+),\s*([A-Z][a-z]+)\b/    "Springfield, Illinois"

  The engine tries start positions from left to right and returns the first that
  admits a match. At a fixed start only one way of laying the pattern over the text
  can succeed (`MatchAtComplete`), so the backtracking order of the quantifiers never
  changes the result and the matcher below follows the greedy path only.
 */
module LocationPatterns {
  import opened Js
  import opened RegExp

  datatype Pattern = CityCode | CityState

  /**
    Positions of one match in the searched text s: the whole match is s[start..end],
    group 1 (the city) is s[start..comma] and group 2 (the state) is s[stateStart..end].
   */
  datatype Span = Span(start: nat, comma: nat, stateStart: nat, end: nat)

  /** What `match` returns: match[0], match[1] and match[2]. */
  datatype RegexMatch = RegexMatch(full: string, city: string, state: string)

  /** s[a..b] is spelled the way group 2 of pattern p requires. */
  predicate StateGroup(s: string, p: Pattern, a: nat, b: nat)
    requires a <= b <= |s|
  {
    match p
    case CityCode => b == a + 2 && InClass(s[a], Upper) && InClass(s[a + 1], Upper)
    case CityState => b >= a + 2 && InClass(s[a], Upper) && forall k :: a < k < b ==> InClass(s[k], Lower)
  }

  /**
    sp lays pattern p over s: `[A-Z]`, one or more `[a-z\s]`, a comma, any `\s`,
    the state group and a word boundary. This is the reading of the regular
    expression itself, with no search order or greediness in it.
   */
  predicate Decomposes(s: string, p: Pattern, sp: Span) {
    && InOrder(s, sp)
    && InClass(s[sp.start], Upper)
    && (forall k :: sp.start < k < sp.comma ==> InClass(s[k], LowerOrSpace))
    && s[sp.comma] == ','
    && (forall k :: sp.comma < k < sp.stateStart ==> InClass(s[k], Space))
    && StateGroup(s, p, sp.stateStart, sp.end)
    && WordBoundary(s, sp.end)
  }

  /** Group 2 of pattern p starting at a, read greedily; the position after it. */
  function StateEnd(s: string, p: Pattern, a: nat): (b: Option<nat>)
    requires a <= |s|
    ensures b.Some? ==> a <= b.value <= |s|
  {
    match p
    case CityCode =>
      if a + 2 <= |s| && InClass(s[a], Upper) && InClass(s[a + 1], Upper) then Some(a + 2) else None
    case CityState =>
      if a < |s| && InClass(s[a], Upper) then
        var b := RunEnd(s, a + 1, Lower);
        if b >= a + 2 then Some(b) else None
      else None
  }

  /** What the greedy reading of group 2 returns is spelled the way the group requires. */
  lemma StateEndSound(s: string, p: Pattern, a: nat)
    requires a <= |s|
    ensures StateEnd(s, p, a).Some? ==> StateGroup(s, p, a, StateEnd(s, p, a).value)
  {
    if p == CityState && a < |s| {
      RunEndIsLongestRun(s, a + 1, Lower);
    }
  }

  /** The span's positions are in order and inside s, so its groups can be read off. */
  predicate InOrder(s: string, sp: Span) {
    sp.start + 2 <= sp.comma < sp.stateStart <= sp.end <= |s|
  }

  /** The attempt the engine makes at start position i. */
  function MatchAt(s: string, i: nat, p: Pattern): (r: Option<Span>)
    requires i <= |s|
    ensures r.Some? ==> r.value.start == i && InOrder(s, r.value)
  {
    if i == |s| || !InClass(s[i], Upper) then None
    else
      var comma := RunEnd(s, i + 1, LowerOrSpace);
      if comma < i + 2 || comma == |s| || s[comma] != ',' then None
      else
        var a := RunEnd(s, comma + 1, Space);
        match StateEnd(s, p, a)
        case None => None
        case Some(b) => if WordBoundary(s, b) then Some(Span(i, comma, a, b)) else None
  }

  /** What the attempt at i finds lays the pattern over s from i. */
  lemma MatchAtSound(s: string, i: nat, p: Pattern)
    requires i <= |s| && MatchAt(s, i, p).Some?
    ensures Decomposes(s, p, MatchAt(s, i, p).value)
  {
    var comma := RunEnd(s, i + 1, LowerOrSpace);
    RunEndIsLongestRun(s, i + 1, LowerOrSpace);
    RunEndIsLongestRun(s, comma + 1, Space);
    StateEndSound(s, p, RunEnd(s, comma + 1, Space));
  }

  /** Every way of laying the pattern over s is the one the greedy attempt at its start finds. */
  lemma MatchAtComplete(s: string, p: Pattern, sp: Span)
    requires Decomposes(s, p, sp)
    ensures MatchAt(s, sp.start, p) == Some(sp)
  {
    assert !InClass(s[sp.comma], LowerOrSpace);
    RunEndUnique(s, sp.start + 1, sp.comma, LowerOrSpace);
    assert !InClass(s[sp.stateStart], Space);
    RunEndUnique(s, sp.comma + 1, sp.stateStart, Space);
    StateEndComplete(s, p, sp.stateStart, sp.end);
  }

  /** Group 2 read greedily stops where any successful reading followed by `\b` stops. */
  lemma StateEndComplete(s: string, p: Pattern, a: nat, b: nat)
    requires a <= b <= |s| && StateGroup(s, p, a, b) && WordBoundary(s, b)
    ensures StateEnd(s, p, a) == Some(b)
  {
    if p == CityState {
      assert IsWordChar(s[b - 1]);
      RunEndUnique(s, a + 1, b, Lower);
    }
  }

  /** The engine's scan over start positions i, i + 1, ..., |s|: the first attempt that succeeds. */
  function SearchFrom(s: string, i: nat, p: Pattern): (r: Option<Span>)
    requires i <= |s|
    ensures r.Some? ==> i <= r.value.start && InOrder(s, r.value)
    decreases |s| - i
  {
    match MatchAt(s, i, p)
    case Some(sp) => Some(sp)
    case None => if i == |s| then None else SearchFrom(s, i + 1, p)
  }

  /** The scan returns the attempt of the start it reports. */
  lemma {:induction false} SearchFromFound(s: string, i: nat, p: Pattern)
    requires i <= |s| && SearchFrom(s, i, p).Some?
    ensures MatchAt(s, SearchFrom(s, i, p).value.start, p) == SearchFrom(s, i, p)
    decreases |s| - i
  {
    if MatchAt(s, i, p).None? {
      SearchFromFound(s, i + 1, p);
    }
  }

  /** Every attempt before the start the scan reports fails. */
  lemma {:induction false} SearchFromEarlierFail(s: string, i: nat, p: Pattern, j: nat)
    requires i <= j <= |s| && SearchFrom(s, i, p).Some? && j < SearchFrom(s, i, p).value.start
    ensures MatchAt(s, j, p).None?
    decreases |s| - i
  {
    if j > i {
      SearchFromEarlierFail(s, i + 1, p, j);
    }
  }

  /** The scan fails only when every attempt fails. */
  lemma {:induction false} SearchFromNone(s: string, i: nat, p: Pattern, j: nat)
    requires i <= j <= |s| && SearchFrom(s, i, p).None?
    ensures MatchAt(s, j, p).None?
    decreases |s| - i
  {
    if j > i {
      SearchFromNone(s, i + 1, p, j);
    }
  }

  /** `s.match(p)`, as positions. */
  function Exec(s: string, p: Pattern): (r: Option<Span>)
    ensures r.Some? ==> InOrder(s, r.value)
  {
    SearchFrom(s, 0, p)
  }

  /**
    `match` finds the leftmost way of laying p over s, which is the only one at that
    start, and finds nothing exactly when p cannot be laid over s at all.
   */
  lemma ExecIsLeftmostMatch(s: string, p: Pattern)
    ensures Exec(s, p).Some? ==> Decomposes(s, p, Exec(s, p).value)
    ensures Exec(s, p).Some? ==> forall sp :: Decomposes(s, p, sp) ==> Exec(s, p).value.start <= sp.start
    ensures Exec(s, p).Some? ==> forall sp :: Decomposes(s, p, sp) && sp.start == Exec(s, p).value.start ==> sp == Exec(s, p).value
    ensures Exec(s, p).None? <==> forall sp :: !Decomposes(s, p, sp)
  {
    var r := Exec(s, p);
    if r.Some? {
      SearchFromFound(s, 0, p);
      MatchAtSound(s, r.value.start, p);
    }
    forall sp | Decomposes(s, p, sp)
      ensures r.Some? && r.value.start <= sp.start
      ensures r.Some? && sp.start == r.value.start ==> sp == r.value
    {
      MatchAtComplete(s, p, sp);
      if r.None? {
        SearchFromNone(s, 0, p, sp.start);
      } else if sp.start < r.value.start {
        SearchFromEarlierFail(s, 0, p, sp.start);
      }
    }
  }

  /** The match array of a span: the whole match and the two groups. */
  function Groups(s: string, sp: Span): (r: RegexMatch)
    requires InOrder(s, sp)
  {
    RegexMatch(s[sp.start..sp.end], s[sp.start..sp.comma], s[sp.stateStart..sp.end])
  }

  /** `s.match(p)` as the array `[match[0], match[1], match[2]]`, or `null`. */
  function Match(s: string, p: Pattern): (r: Option<RegexMatch>) {
    match Exec(s, p)
    case None => None
    case Some(sp) => Some(Groups(s, sp))
  }

  /**
    The shape of what a location pattern returns: the whole match is the substring
    s[start..end] made of the city, a comma, optional whitespace and the state; the
    city is an uppercase letter followed by one or more lowercase letters or
    whitespace; the state is two uppercase letters (CityCode) or an uppercase letter
    followed by one or more lowercase letters (CityState); and the character after
    the match, if any, is not a word character.
   */
  lemma MatchShape(s: string, p: Pattern, sp: Span)
    requires Decomposes(s, p, sp)
    ensures var m := Groups(s, sp);
      && m.full == s[sp.start..sp.end]
      && m.full == m.city + [','] + s[sp.comma + 1..sp.stateStart] + m.state
      && AllIn(s[sp.comma + 1..sp.stateStart], Space)
      && |m.city| >= 2 && InClass(m.city[0], Upper) && AllIn(m.city[1..], LowerOrSpace)
      && (p == CityCode ==> |m.state| == 2 && AllIn(m.state, Upper))
      && (p == CityState ==> |m.state| >= 2 && InClass(m.state[0], Upper) && AllIn(m.state[1..], Lower))
      && (sp.end == |s| || !IsWordChar(s[sp.end]))
  {
    FullIsCityCommaState(s, sp);
    AllInSlice(s, sp.comma + 1, sp.stateStart, Space);
    AllInSlice(s, sp.start + 1, sp.comma, LowerOrSpace);
    assert s[sp.start..sp.comma][1..] == s[sp.start + 1..sp.comma];
    if p == CityState {
      assert IsWordChar(s[sp.end - 1]);
      AllInSlice(s, sp.stateStart + 1, sp.end, Lower);
      assert s[sp.stateStart..sp.end][1..] == s[sp.stateStart + 1..sp.end];
    } else {
      assert InClass(s[sp.stateStart], Upper) && InClass(s[sp.stateStart + 1], Upper);
    }
  }

  /** The whole match is the city, the comma, the whitespace after it and the state. */
  lemma FullIsCityCommaState(s: string, sp: Span)
    requires InOrder(s, sp) && s[sp.comma] == ','
    ensures s[sp.start..sp.end] == s[sp.start..sp.comma] + [','] + s[sp.comma + 1..sp.stateStart] + s[sp.stateStart..sp.end]
  {
    assert s[sp.start..sp.end] == s[sp.start..sp.comma] + s[sp.comma..sp.end];
    assert s[sp.comma..sp.end] == [','] + s[sp.comma + 1..sp.end];
    assert s[sp.comma + 1..sp.end] == s[sp.comma + 1..sp.stateStart] + s[sp.stateStart..sp.end];
  }
}

=== FILE: merge.dfy ===
/**
  The record a team detail page produces (main.js:240-252): the stub stored for
  the request's URL supplies the name, rank and rating, with JavaScript's `||`
  defaults, and the detail extraction supplies the location fields and the logo.
 */
module Merge {
  import opened Js
  import opened Rankings
  import opened Detail

  /** `completeTeamData`, the record pushed to the dataset. */
  datatype TeamRecord = TeamRecord(
    teamName: string,
    rank: Option<string>,
    rating: Option<string>,
    city: Option<string>,
    state: Option<string>,
    location: Option<string>,
    logoUrl: Option<string>,
    teamUrl: string)

  /** `teamsData.find(t => t.teamUrl === url)`: the first stored stub whose URL is exactly url. */
  function FindStub(store: seq<TeamStub>, url: string): (r: Option<TeamStub>) {
    match FindIndex(store, (t: TeamStub) => t.teamUrl == url)
    case None => None
    case Some(i) => Some(store[i])
  }

  /** store[i] is the first stored stub with URL url. */
  predicate FirstWithUrl(store: seq<TeamStub>, url: string, i: nat)
    requires i < |store|
  {
    store[i].teamUrl == url && forall j :: 0 <= j < i ==> store[j].teamUrl != url
  }

  /** The search finds the first stub with the URL, and nothing exactly when no stub has it. */
  lemma FindStubSpec(store: seq<TeamStub>, url: string)
    ensures FindStub(store, url).None? <==> forall i :: 0 <= i < |store| ==> store[i].teamUrl != url
    ensures forall i :: 0 <= i < |store| && FirstWithUrl(store, url, i) ==> FindStub(store, url) == Some(store[i])
  {
    var f := (t: TeamStub) => t.teamUrl == url;
    match FindIndex(store, f)
    case None =>
    case Some(k) =>
      assert forall i :: 0 <= i < |store| && FirstWithUrl(store, url, i) ==> i == k by {
        assert forall j :: 0 <= j < k ==> !f(store[j]);
      }
  }

  /** `teamFromRankings?.teamName`, `?.rank` and `?.rating`: undefined, here null, when there is no stub. */
  function NameOf(stub: Option<TeamStub>): (r: Option<string>) {
    match stub
    case None => None
    case Some(t) => Some(t.teamName)
  }

  function RankOf(stub: Option<TeamStub>): (r: Option<string>) {
    match stub
    case None => None
    case Some(t) => t.rank
  }

  function RatingOf(stub: Option<TeamStub>): (r: Option<string>) {
    match stub
    case None => None
    case Some(t) => t.rating
  }

  /** `completeTeamData` for a detail page fetched from url, given the stubs stored so far. */
  function Join(store: seq<TeamStub>, url: string, detail: TeamDetail): (r: TeamRecord) {
    var stub := FindStub(store, url);
    TeamRecord(
      OrDefault(NameOf(stub), "Unknown"),
      OrNull(RankOf(stub)),
      OrNull(RatingOf(stub)),
      detail.city,
      detail.state,
      detail.fullLocation,
      detail.logoUrl,
      url)
  }

  /**
    Whatever the store holds, the record's location fields and logo are the detail
    page's and its URL is the request's; and its name is never empty.
   */
  lemma JoinKeepsDetail(store: seq<TeamStub>, url: string, detail: TeamDetail)
    ensures var r := Join(store, url, detail);
      && r.city == detail.city && r.state == detail.state
      && r.location == detail.fullLocation && r.logoUrl == detail.logoUrl
      && r.teamUrl == url
      && r.teamName != ""
      && (r.rank.None? || r.rank.value != "")
      && (r.rating.None? || r.rating.value != "")
  {
  }

  /** With no stub for the URL the record is "Unknown" with a null rank and rating. */
  lemma JoinWithoutStub(store: seq<TeamStub>, url: string, detail: TeamDetail)
    requires forall i :: 0 <= i < |store| ==> store[i].teamUrl != url
    ensures var r := Join(store, url, detail);
      r.teamName == "Unknown" && r.rank.None? && r.rating.None?
  {
    FindStubSpec(store, url);
  }

  /**
    With a stub for the URL, the first one supplies the fields: its name unless that
    is empty ("Unknown" then), and its rank and rating with an empty string read as null.
   */
  lemma JoinWithStub(store: seq<TeamStub>, url: string, detail: TeamDetail, i: nat)
    requires i < |store| && FirstWithUrl(store, url, i)
    ensures var r := Join(store, url, detail);
      && r.teamName == (if store[i].teamName != "" then store[i].teamName else "Unknown")
      && r.rank == (if Truthy(store[i].rank) then store[i].rank else None)
      && r.rating == (if Truthy(store[i].rating) then store[i].rating else None)
  {
    FindStubSpec(store, url);
  }

  /** A stub the row extractor built passes its rank and rating through the `|| null` defaults unchanged. */
  lemma JoinKeepsExtractedFields(store: seq<TeamStub>, url: string, detail: TeamDetail, i: nat)
    requires i < |store| && FirstWithUrl(store, url, i) && WellFormedStub(store[i])
    ensures Join(store, url, detail).rank == store[i].rank
    ensures Join(store, url, detail).rating == store[i].rating
  {
    JoinWithStub(store, url, detail, i);
  }

  /** Stubs stored after the first one with the URL do not change the record. */
  lemma JoinIgnoresLaterStubs(store: seq<TeamStub>, more: seq<TeamStub>, url: string, detail: TeamDetail)
    requires exists i :: 0 <= i < |store| && store[i].teamUrl == url
    ensures Join(store + more, url, detail) == Join(store, url, detail)
  {
    var k :| 0 <= k < |store| && store[k].teamUrl == url;
    var i := FirstWithUrlExists(store, url, k);
    assert FirstWithUrl(store + more, url, i) by {
      assert forall j :: 0 <= j <= i ==> (store + more)[j] == store[j];
    }
    FindStubSpec(store, url);
    FindStubSpec(store + more, url);
  }

  /** When some stub has the URL, one of them is the first. */
  lemma {:induction false} FirstWithUrlExists(store: seq<TeamStub>, url: string, k: nat) returns (i: nat)
    requires k < |store| && store[k].teamUrl == url
    ensures i <= k && FirstWithUrl(store, url, i)
  {
    if FirstWithUrl(store, url, k) {
      i := k;
    } else {
      var j :| 0 <= j < k && store[j].teamUrl == url;
      i := FirstWithUrlExists(store, url, j);
    }
  }
}

=== FILE: rankings.dfy ===
/**
  The rankings-page half of the scraper (main.js:39-99): reading one team stub
  out of each `table tr` row that links to a team, keeping the first `maxTeams`
  of them, appending them to the run's stub store and listing the detail pages
  to visit.
 */
module Rankings {
  import opened Js
  import opened RegExp
  import opened Seqs

  /**
    A hyperlink inside a row: its `href` attribute as written (null when the element
    has none), the absolute URL the `href` property resolves it to, and its text content.
   */
  datatype Anchor = Anchor(hrefAttr: Option<string>, href: string, textContent: string)

  /** One `table tr` row: its anchors and the text content of each of its `td` cells, in document order. */
  datatype Row = Row(anchors: seq<Anchor>, cells: seq<string>)

  /** A team as read from the rankings table; rank and rating are null when no cell qualifies. */
  datatype TeamStub = TeamStub(teamName: string, teamUrl: string, rating: Option<string>, rank: Option<string>)

  /** The anchor satisfies the selector `a[href*="team"]`. */
  predicate IsTeamLink(a: Anchor) {
    a.hrefAttr.Some? && Includes(a.hrefAttr.value, "team")
  }

  /** `/^\d+$/.test(t)`. */
  predicate IsRankText(t: string) {
    |t| > 0 && AllIn(t, Digit)
  }

  /**
    `/^\d+\.\d+$/.test(t)`, read the way the engine runs it: the greedy `\d+` stops at
    the first non-digit, which must be a dot that has one or more digits after it
    and nothing else.
   */
  predicate IsRatingText(t: string) {
    var k := RunEnd(t, 0, Digit);
    0 < k && k + 1 < |t| && t[k] == '.' && RunEnd(t, k + 1, Digit) == |t|
  }

  /** t splits at position k into digits, a dot and digits: the pattern read as a regular expression. */
  predicate RatingSplit(t: string, k: nat) {
    0 < k < |t| - 1 && t[k] == '.' && AllIn(t[..k], Digit) && AllIn(t[k + 1..], Digit)
  }

  /** The greedy scan accepts exactly the texts the rating pattern describes. */
  lemma RatingTextIsPattern(t: string)
    ensures IsRatingText(t) <==> exists k :: RatingSplit(t, k)
  {
    if IsRatingText(t) {
      var k := RunEnd(t, 0, Digit);
      RunEndIsLongestRun(t, 0, Digit);
      RunEndIsLongestRun(t, k + 1, Digit);
      AllInSlice(t, 0, k, Digit);
      AllInSlice(t, k + 1, |t|, Digit);
      assert t[..k] == t[0..k] && t[k + 1..] == t[k + 1..|t|];
      assert RatingSplit(t, k);
    }
    if k: nat :| RatingSplit(t, k) {
      assert !InClass(t[k], Digit);
      RunEndUnique(t, 0, k, Digit);
      RunEndUnique(t, k + 1, |t|, Digit) by {
        forall i | k + 1 <= i < |t|
          ensures InClass(t[i], Digit)
        {
          assert t[i] == t[k + 1..][i - k - 1];
        }
      }
    }
  }

  /** No text is both a rank and a rating, so no cell can set both fields. */
  lemma RankAndRatingDisjoint(t: string)
    ensures !(IsRankText(t) && IsRatingText(t))
  {
    if IsRatingText(t) {
      var k := RunEnd(t, 0, Digit);
      assert !InClass(t[k], Digit);
    }
  }

  /**
    A rating is digits with exactly one dot strictly inside: the dot can be neither
    first nor last, and a second dot ("8.4.5") or no dot ("8") fails.
   */
  lemma RatingTextOneDot(t: string)
    ensures IsRatingText(t) <==>
      && 3 <= |t|
      && InClass(t[0], Digit) && InClass(t[|t| - 1], Digit)
      && (forall i :: 0 <= i < |t| ==> InClass(t[i], Digit) || t[i] == '.')
      && (exists i :: 0 <= i < |t| && t[i] == '.')
      && (forall i, j :: 0 <= i < j < |t| && t[i] == '.' ==> t[j] != '.')
  {
    if IsRatingText(t) {
      var k := RunEnd(t, 0, Digit);
      RunEndIsLongestRun(t, 0, Digit);
      RunEndIsLongestRun(t, k + 1, Digit);
      assert t[k] == '.';
      assert forall i :: 0 <= i < |t| && i != k ==> InClass(t[i], Digit);
    }
    if && 3 <= |t|
       && InClass(t[0], Digit) && InClass(t[|t| - 1], Digit)
       && (forall i :: 0 <= i < |t| ==> InClass(t[i], Digit) || t[i] == '.')
       && (exists i :: 0 <= i < |t| && t[i] == '.')
       && (forall i, j :: 0 <= i < j < |t| && t[i] == '.' ==> t[j] != '.')
    {
      var k :| 0 <= k < |t| && t[k] == '.';
      RunEndUnique(t, 0, k, Digit);
      RunEndUnique(t, k + 1, |t|, Digit);
    }
  }

  /** Cell k's trimmed text is a rating and no later cell's is. */
  predicate LastRatingCell(cells: seq<string>, k: nat)
    requires k < |cells|
  {
    IsRatingText(Trim(cells[k])) && forall j :: k < j < |cells| ==> !IsRatingText(Trim(cells[j]))
  }

  /**
    The `cells.forEach` pass over a row's cells from position index on, carrying the
    rank and rating found so far: a cell whose trimmed text is a rating replaces the
    rating, and the first cell, when its trimmed text is a rank, sets the rank.
    What it computes: the rank comes from the first cell alone, and the rating is the
    trimmed text of the last rating cell (the one carried in when there is none).
   */
  function ScanCells(cells: seq<string>, index: nat, rank: Option<string>, rating: Option<string>)
    : (r: (Option<string>, Option<string>))
    requires index <= |cells|
    ensures r.0 == (if index == 0 && |cells| > 0 && IsRankText(Trim(cells[0])) then Some(Trim(cells[0])) else rank)
    ensures (forall k :: index <= k < |cells| ==> !IsRatingText(Trim(cells[k]))) ==> r.1 == rating
    ensures forall k :: index <= k < |cells| && LastRatingCell(cells, k) ==> r.1 == Some(Trim(cells[k]))
    decreases |cells| - index
  {
    if index == |cells| then (rank, rating)
    else
      var text := Trim(cells[index]);
      var rating' := if IsRatingText(text) then Some(text) else rating;
      var rank' := if index == 0 && IsRankText(text) then Some(text) else rank;
      ScanCells(cells, index + 1, rank', rating')
  }

  /** When some cell is a rating, one of them is the last. */
  lemma {:induction false} LastRatingCellExists(cells: seq<string>, i: nat)
    requires i < |cells| && IsRatingText(Trim(cells[i]))
    ensures exists k :: i <= k < |cells| && LastRatingCell(cells, k)
    decreases |cells| - i
  {
    if !LastRatingCell(cells, i) {
      var j :| i < j < |cells| && IsRatingText(Trim(cells[j]));
      LastRatingCellExists(cells, j);
    }
  }

  /** The rating the cell scan reports is null exactly when no cell is a rating, and otherwise the last rating cell's text. */
  lemma ScanCellsRating(cells: seq<string>)
    ensures var rating := ScanCells(cells, 0, None, None).1;
      && (rating.None? <==> forall k :: 0 <= k < |cells| ==> !IsRatingText(Trim(cells[k])))
      && (rating.Some? ==> exists k :: 0 <= k < |cells| && LastRatingCell(cells, k) && rating.value == Trim(cells[k]))
  {
    if k :| 0 <= k < |cells| && IsRatingText(Trim(cells[k])) {
      LastRatingCellExists(cells, k);
    }
  }

  /** The stub a row yields, or null when the row has no team link. */
  function ExtractStub(row: Row): (r: Option<TeamStub>) {
    match FindIndex(row.anchors, IsTeamLink)
    case None => None
    case Some(i) =>
      var link := row.anchors[i];
      var (rank, rating) := ScanCells(row.cells, 0, None, None);
      Some(TeamStub(Trim(link.textContent), link.href, rating, rank))
  }

  /**
    What a row yields: nothing unless it has a link whose `href` contains "team"; then
    the first such link's trimmed text and resolved URL, the rank when the first
    cell's trimmed text is all digits, and the trimmed text of the last cell that is
    a rating (null when no cell is).
   */
  lemma ExtractStubSpec(row: Row)
    ensures ExtractStub(row).None? <==> forall i :: 0 <= i < |row.anchors| ==> !IsTeamLink(row.anchors[i])
    ensures ExtractStub(row).Some? ==> exists i ::
      && 0 <= i < |row.anchors| && IsTeamLink(row.anchors[i])
      && (forall j :: 0 <= j < i ==> !IsTeamLink(row.anchors[j]))
      && ExtractStub(row).value.teamName == Trim(row.anchors[i].textContent)
      && ExtractStub(row).value.teamUrl == row.anchors[i].href
    ensures ExtractStub(row).Some? ==> (ExtractStub(row).value.rank ==
      if |row.cells| > 0 && IsRankText(Trim(row.cells[0])) then Some(Trim(row.cells[0])) else None)
    ensures ExtractStub(row).Some? && (forall k :: 0 <= k < |row.cells| ==> !IsRatingText(Trim(row.cells[k])))
      ==> ExtractStub(row).value.rating.None?
    ensures forall k :: (0 <= k < |row.cells| && LastRatingCell(row.cells, k) && ExtractStub(row).Some?
      ==> ExtractStub(row).value.rating == Some(Trim(row.cells[k])))
  {
  }

  /** The stubs a rankings page yields: one per row with a team link, in row order. */
  function ExtractStubs(rows: seq<Row>): (r: seq<TeamStub>)
    ensures |r| <= |rows|
  {
    FilterMap(rows, ExtractStub)
  }

  /** Every stub comes from a row, and a page yields no stub exactly when no row has a team link. */
  lemma ExtractStubsFromRows(rows: seq<Row>)
    ensures forall st :: st in ExtractStubs(rows) ==> exists i :: 0 <= i < |rows| && ExtractStub(rows[i]) == Some(st)
    ensures ExtractStubs(rows) == [] <==> forall i :: 0 <= i < |rows| ==> ExtractStub(rows[i]).None?
  {
    FilterMapFrom(rows, ExtractStub);
  }

  /** Extraction goes row by row: the stubs of two stretches of rows, in order, are the stubs of both. */
  lemma ExtractStubsAppend(a: seq<Row>, b: seq<Row>)
    ensures ExtractStubs(a + b) == ExtractStubs(a) + ExtractStubs(b)
  {
    FilterMapAppend(a, b, ExtractStub);
  }

  /** A single row contributes its own stub, or nothing when it has no team link. */
  lemma ExtractStubsSingle(row: Row)
    ensures ExtractStubs([row]) == (match ExtractStub(row) case Some(st) => [st] case None => [])
  {
    FilterMapSingle(row, ExtractStub);
  }

  /** `maxTeams > 0 ? teams.slice(0, maxTeams) : teams`: the first maxTeams stubs, or all of them. */
  function KeepTeams(teams: seq<TeamStub>, maxTeams: int): (r: seq<TeamStub>)
    ensures maxTeams > 0 ==> r == teams[..if maxTeams < |teams| then maxTeams else |teams|]
    ensures maxTeams <= 0 ==> r == teams
  {
    if maxTeams > 0 then Slice(teams, 0, maxTeams) else teams
  }

  /** The URLs handed to the detail-page enqueue loop: each kept stub's URL when it is non-empty, in order. */
  function DetailUrls(teams: seq<TeamStub>): (r: seq<string>)
    ensures forall u :: u in r ==> u != "" && exists i :: 0 <= i < |teams| && teams[i].teamUrl == u
    ensures forall i :: 0 <= i < |teams| && teams[i].teamUrl != "" ==> teams[i].teamUrl in r
    ensures |r| <= |teams|
  {
    if teams == [] then []
    else
      var rest := DetailUrls(teams[1..]);
      assert forall u :: u in rest ==> exists i :: 0 <= i < |teams| && teams[i].teamUrl == u by {
        forall u | u in rest
          ensures exists i :: 0 <= i < |teams| && teams[i].teamUrl == u
        {
          var i :| 0 <= i < |teams[1..]| && teams[1..][i].teamUrl == u;
          assert teams[i + 1].teamUrl == u;
        }
      }
      if teams[0].teamUrl != "" then [teams[0].teamUrl] + rest else rest
  }

  /**
    The enqueue loop goes stub by stub: the URLs of two stretches of stubs, in order,
    are the URLs of both, so a URL shared by several stubs is enqueued once per stub.
   */
  lemma {:induction false} DetailUrlsAppend(a: seq<TeamStub>, b: seq<TeamStub>)
    ensures DetailUrls(a + b) == DetailUrls(a) + DetailUrls(b)
    decreases |a|
  {
    if a == [] {
      assert a + b == b;
    } else {
      assert (a + b)[1..] == a[1..] + b;
      DetailUrlsAppend(a[1..], b);
    }
  }

  /** A single stub contributes its URL when that is non-empty, and nothing otherwise. */
  lemma DetailUrlsSingle(t: TeamStub)
    ensures DetailUrls([t]) == (if t.teamUrl != "" then [t.teamUrl] else [])
  {
    assert [t][1..] == [];
  }

  /** A stub as the row extractor builds it: trimmed name, and rank and rating that passed their patterns. */
  predicate WellFormedStub(st: TeamStub) {
    && st.teamName == Trim(st.teamName)
    && (st.rank.Some? ==> IsRankText(st.rank.value))
    && (st.rating.Some? ==> IsRatingText(st.rating.value))
  }

  /** The stub of a single row is well formed. */
  lemma ExtractStubWellFormed(row: Row)
    ensures ExtractStub(row).Some? ==> WellFormedStub(ExtractStub(row).value)
  {
    if ExtractStub(row).Some? {
      var i := FindIndex(row.anchors, IsTeamLink).value;
      TrimIdempotent(row.anchors[i].textContent);
      ScanCellsRating(row.cells);
    }
  }

  /** Every stub the extractor produces is well formed. */
  lemma ExtractedStubsWellFormed(rows: seq<Row>)
    ensures forall st :: st in ExtractStubs(rows) ==> WellFormedStub(st)
  {
    ExtractStubsFromRows(rows);
    forall st | st in ExtractStubs(rows)
      ensures WellFormedStub(st)
    {
      var i :| 0 <= i < |rows| && ExtractStub(rows[i]) == Some(st);
      ExtractStubWellFormed(rows[i]);
    }
  }
}

=== FILE: regexp.dfy ===
/**
  The pieces of JavaScript regular-expression matching the scraper's patterns use.
  Without the `u` or `i` flag, `\d`, `[A-Z]` and `[a-z]` are ASCII ranges, `\w` is
  `[A-Za-z0-9_]`, and `\s` is the whitespace set that `trim` also removes.
 */
module RegExp {
  import Js

  /** The character classes that occur in the scraper's regular expressions. */
  datatype CharClass =
    | Digit         // \d
    | Upper         // [A-Z]
    | Lower         // [a-z]
    | LowerOrSpace  // [a-z\s]
    | Space         // \s

  predicate InClass(c: char, cls: CharClass) {
    match cls
    case Digit => '0' <= c <= '9'
    case Upper => 'A' <= c <= 'Z'
    case Lower => 'a' <= c <= 'z'
    case LowerOrSpace => ('a' <= c <= 'z') || Js.IsSpace(c)
    case Space => Js.IsSpace(c)
  }

  /** Every character of t is in the class. */
  predicate AllIn(t: string, cls: CharClass) {
    forall k :: 0 <= k < |t| ==> InClass(t[k], cls)
  }

  /** `\w`: the characters on the word side of a `\b`. */
  predicate IsWordChar(c: char) {
    InClass(c, Digit) || InClass(c, Upper) || InClass(c, Lower) || c == '_'
  }

  /** `\b` at position i of s: exactly one of the two characters around i is a word character. */
  predicate WordBoundary(s: string, i: nat)
    requires i <= |s|
  {
    (i > 0 && IsWordChar(s[i - 1])) != (i < |s| && IsWordChar(s[i]))
  }

  /**
    Where the longest run of characters of class cls that starts at i ends: the
    position a greedy `cls*` reaches from i before any backtracking.
   */
  function RunEnd(s: string, i: nat, cls: CharClass): (j: nat)
    requires i <= |s|
    ensures i <= j <= |s|
    decreases |s| - i
  {
    if i < |s| && InClass(s[i], cls) then RunEnd(s, i + 1, cls) else i
  }

  /** The run is made of cls characters and stops at the end of s or at a character outside cls. */
  lemma {:induction false} RunEndIsLongestRun(s: string, i: nat, cls: CharClass)
    requires i <= |s|
    ensures forall k :: i <= k < RunEnd(s, i, cls) ==> InClass(s[k], cls)
    ensures RunEnd(s, i, cls) == |s| || !InClass(s[RunEnd(s, i, cls)], cls)
    decreases |s| - i
  {
    if i < |s| && InClass(s[i], cls) {
      RunEndIsLongestRun(s, i + 1, cls);
    }
  }

  /** A run of cls from i that stops at a character outside cls (or at the end) is the longest one. */
  lemma RunEndUnique(s: string, i: nat, j: nat, cls: CharClass)
    requires i <= j <= |s|
    requires forall k :: i <= k < j ==> InClass(s[k], cls)
    requires j == |s| || !InClass(s[j], cls)
    ensures RunEnd(s, i, cls) == j
  {
    RunEndIsLongestRun(s, i, cls);
  }

  /** A stretch of s whose characters are all in a class is, as a string, all in that class. */
  lemma AllInSlice(s: string, a: nat, b: nat, cls: CharClass)
    requires a <= b <= |s|
    requires forall k :: a <= k < b ==> InClass(s[k], cls)
    ensures AllIn(s[a..b], cls)
  {
    forall k | 0 <= k < b - a
      ensures InClass(s[a..b][k], cls)
    {
      assert s[a..b][k] == s[a + k];
    }
  }
}

=== FILE: scenarios.dfy ===
/**
  Worked inputs: cell texts against the rank and rating patterns of main.js:58-67,
  and texts against the location patterns of main.js:197-214. The location examples
  are derived from the matcher's characterization (`ExecIsLeftmostMatch`), with the
  text passed as a parameter fixed by the precondition, so the matcher is reasoned
  about rather than unfolded character by character.
 */
module Scenarios {
  import opened Js
  import opened RegExp
  import opened LocationPatterns
  import opened Detail
  import opened Rankings

  /**
    Cell texts against the rank and rating patterns: a rating needs digits on both
    sides of exactly one dot, and a rank is digits only.
   */
  lemma CellPatternExamples()
    ensures IsRatingText("8.45") && !IsRankText("8.45")
    ensures !IsRatingText("8") && IsRankText("8")
    ensures !IsRatingText("8.4.5") && !IsRatingText(".5") && !IsRatingText("8.")
    ensures !IsRankText("12th") && !IsRankText("")
    ensures Trim(" 8.45\n") == "8.45"
  {
    assert !InClass("12th"[2], Digit);
  }

  /** In "Springfield, IL" the city-and-code pattern covers the whole text. */
  lemma SpringfieldCodeSpan(s: string)
    requires s == "Springfield, IL"
    ensures Exec(s, CityCode) == Some(Span(0, 11, 13, 15))
  {
    assert Decomposes(s, CityCode, Span(0, 11, 13, 15)) by {
      assert forall k :: 0 < k < 11 ==> InClass(s[k], LowerOrSpace);
    }
    ExecIsLeftmostMatch(s, CityCode);
  }

  /** "Springfield, IL" gives the city "Springfield" and the state "IL". */
  lemma SpringfieldCode(s: string)
    requires s == "Springfield, IL"
    ensures MatchLocation(s) == Some(RegexMatch("Springfield, IL", "Springfield", "IL"))
  {
    SpringfieldCodeSpan(s);
    assert s[0..15] == "Springfield, IL";
    assert s[0..11] == "Springfield";
    assert s[13..15] == "IL";
  }

  /** A spelled-out state does not fit the two-letter pattern anywhere in the text. */
  lemma IllinoisHasNoCode(s: string)
    requires s == "Springfield, Illinois"
    ensures Exec(s, CityCode).None?
  {
    ExecIsLeftmostMatch(s, CityCode);
    assert forall k :: 0 <= k < |s| && s[k] == ',' ==> k == 11;
    assert !InClass(s[13], Space);
    assert !StateGroup(s, CityCode, 12, 14);
    assert !StateGroup(s, CityCode, 13, 15);
    forall sp
      ensures !Decomposes(s, CityCode, sp)
    {
      if sp.start + 2 <= sp.comma < sp.stateStart <= sp.end <= |s| && s[sp.comma] == ',' {
        assert sp.comma == 11;
      }
    }
  }

  /** The city-and-state pattern covers "Springfield, Illinois" whole. */
  lemma IllinoisStateSpan(s: string)
    requires s == "Springfield, Illinois"
    ensures Exec(s, CityState) == Some(Span(0, 11, 13, 21))
  {
    var sp := Span(0, 11, 13, 21);
    assert StateGroup(s, CityState, 13, 21) by {
      assert forall k :: 13 < k < 21 ==> InClass(s[k], Lower);
    }
    assert Decomposes(s, CityState, sp) by {
      assert forall k :: 0 < k < 11 ==> InClass(s[k], LowerOrSpace);
    }
    ExecIsLeftmostMatch(s, CityState);
  }

  /** So "Springfield, Illinois" falls through to the second pattern: city "Springfield", state "Illinois". */
  lemma SpringfieldState(s: string)
    requires s == "Springfield, Illinois"
    ensures MatchLocation(s) == Some(RegexMatch("Springfield, Illinois", "Springfield", "Illinois"))
  {
    IllinoisHasNoCode(s);
    IllinoisStateSpan(s);
    assert s[0..21] == "Springfield, Illinois";
    assert s[0..11] == "Springfield";
    assert s[13..21] == "Illinois";
  }

  /**
    A dot cannot be part of a city, so in "St. Louis, MO" the leftmost match starts
    at "Louis": the scraper reports the city as "Louis".
   */
  lemma StLouisSpan(s: string)
    requires s == "St. Louis, MO"
    ensures Exec(s, CityCode) == Some(Span(4, 9, 11, 13))
  {
    assert Decomposes(s, CityCode, Span(4, 9, 11, 13));
    ExecIsLeftmostMatch(s, CityCode);
    StLouisNoEarlierStart(s, Exec(s, CityCode).value);
  }

  /** No way of laying the pattern over "St. Louis, MO" starts before "Louis". */
  lemma StLouisNoEarlierStart(s: string, sp: Span)
    requires s == "St. Louis, MO"
    requires Decomposes(s, CityCode, sp)
    ensures sp.start >= 4
  {
    assert !InClass(s[1], Upper) && !InClass(s[2], LowerOrSpace) && !InClass(s[3], Upper);
    assert forall k :: 0 <= k < |s| && s[k] == ',' ==> k == 9;
  }

  /** "St. Louis, MO" gives the city "Louis" and the state "MO". */
  lemma StLouis(s: string)
    requires s == "St. Louis, MO"
    ensures MatchLocation(s) == Some(RegexMatch("Louis, MO", "Louis", "MO"))
  {
    StLouisSpan(s);
    assert s[4..13] == "Louis, MO";
    assert s[4..9] == "Louis";
    assert s[11..13] == "MO";
  }
}

=== FILE: seqs.dfy ===
/**
  The two loop shapes the scraper's extraction code is built from, defined once:
  a `forEach` that pushes what each element yields (`FilterMap`), and a loop that
  returns at the first element that yields something (`FirstSome`).
 */
module Seqs {
  import opened Js

  /** What f yields for the elements of s, in order, skipping those that yield nothing. */
  function FilterMap<T, U>(s: seq<T>, f: T -> Option<U>): (r: seq<U>)
    ensures |r| <= |s|
  {
    if s == [] then []
    else match f(s[0])
      case Some(y) => [y] + FilterMap(s[1..], f)
      case None => FilterMap(s[1..], f)
  }

  /**
    Everything the loop yields comes from some element, and it yields nothing
    exactly when no element yields anything.
   */
  lemma {:induction false} FilterMapFrom<T, U>(s: seq<T>, f: T -> Option<U>)
    ensures forall y :: y in FilterMap(s, f) ==> exists i :: 0 <= i < |s| && f(s[i]) == Some(y)
    ensures FilterMap(s, f) == [] <==> forall i :: 0 <= i < |s| ==> f(s[i]).None?
  {
    if s != [] {
      FilterMapFrom(s[1..], f);
      forall y | y in FilterMap(s[1..], f)
        ensures exists i :: 0 <= i < |s| && f(s[i]) == Some(y)
      {
        var i :| 0 <= i < |s[1..]| && f(s[1..][i]) == Some(y);
        assert f(s[i + 1]) == Some(y);
      }
      assert forall i :: 1 <= i < |s| ==> s[i] == s[1..][i - 1];
    }
  }

  /** The loop goes element by element: over two stretches in order it yields what each yields, in order. */
  lemma {:induction false} FilterMapAppend<T, U>(a: seq<T>, b: seq<T>, f: T -> Option<U>)
    ensures FilterMap(a + b, f) == FilterMap(a, f) + FilterMap(b, f)
    decreases |a|
  {
    if a != [] {
      assert (a + b)[1..] == a[1..] + b;
      FilterMapAppend(a[1..], b, f);
    } else {
      assert a + b == b;
    }
  }

  /** One element yields its own value, or nothing. */
  lemma FilterMapSingle<T, U>(x: T, f: T -> Option<U>)
    ensures FilterMap([x], f) == (match f(x) case Some(y) => [y] case None => [])
  {
    assert [x][1..] == [];
  }

  /** What f yields for the first element of s that yields something; null when none does. */
  function FirstSome<T, U>(s: seq<T>, f: T -> Option<U>): (r: Option<U>) {
    if s == [] then None
    else match f(s[0])
      case Some(y) => Some(y)
      case None => FirstSome(s[1..], f)
  }

  /** s[i] is the first element of s for which f yields something. */
  predicate FirstYielding<T, U>(s: seq<T>, f: T -> Option<U>, i: nat)
    requires i < |s|
  {
    f(s[i]).Some? && forall j :: 0 <= j < i ==> f(s[j]).None?
  }

  /** The search returns the value of the first element that yields one, and nothing only when no element does. */
  lemma {:induction false} FirstSomeIsFirst<T, U>(s: seq<T>, f: T -> Option<U>)
    ensures FirstSome(s, f).None? <==> forall i :: 0 <= i < |s| ==> f(s[i]).None?
    ensures forall i :: 0 <= i < |s| && FirstYielding(s, f, i) ==> FirstSome(s, f) == f(s[i])
  {
    if s != [] {
      FirstSomeIsFirst(s[1..], f);
      assert forall i :: 1 <= i < |s| ==> s[i] == s[1..][i - 1];
    }
  }
}
